=== FILE: README.md ===
# gitql query runtime, modelled in Dafny

gitql answers SQL-like `SELECT` queries over a git repository. Its runtime
(`runtime/runtime.go`) holds the part that executes an already parsed query.
This project models that part, with git objects replaced by plain records and
the WHERE clause replaced by an abstract predicate over the entity under test:

- **Schema** (`schema.dfy`): the declared virtual tables and their ordered field
  lists (`commits`, `refs`, `remotes`, `tags`, `branches`), the proxy-table
  declarations of `tags` and `branches` over `refs`, table and field validation,
  and the alias binding a query establishes.
- **Dispatch** (`dispatch.dfy`): the choice of walk kind from the queried table,
  with the walk codes 1 to 4 of the runtime's constants.
- **Entities and extractors** (`entities.dfy`, `extract.dfy`): commits,
  references and remotes as records, and the three field extractors. Each
  extractor validates the field against the bound table and fails on a
  validated field it has no case for. The commit `message` field is the first
  line of the message. The reference `hash` field is `"NULL"` for a missing
  target, and its `type` field is classified in branch, remote, tag order.
- **Pipeline** (`pipeline.dfy`): the filter / project / limit loop that the
  commit, reference and remote walks each repeat. `Stream` is a functional
  reference semantics of a walk. `WalkRows` is the loop as written: it
  preallocates `limit` empty rows, appends matches, counts with `counter`, and
  returns the slice `rows[len(rows)-counter+1:]`. `WalkRowsBounded` is the loop
  with the zero limit handled.
- **Ordering** (`ordering.dfy`): the `ORDER BY` orderer. `OrderTable` is the
  nested swap loop as written. `SortSeq` and `OrderRows` are the same loop with
  the comparison against the current outer row, proved to sort under any
  comparator that is a strict weak order.
- **Runtime** (`runtime.dfy`): a whole query. It dispatches, runs the walker's
  output through the pipeline and orders the rows. `ExecuteAsWritten` composes
  the loops as written; `Execute` composes the two corrected ones.

Every fatal report of the runtime (`log.Fatal`, `log.Fatalln`, `log.Fatalf`)
becomes an `Err` value carrying an `Error` (`results.dfy`). The repository
library's walkers become input sequences: commits in walk order, references in
iterator order, and remote names with the remotes that load. The WHERE
predicate and the parser's greater-than and smaller-than comparisons are
function parameters.

Two facts about the tables shape the model:

- `tags` and `branches` are proxies over `refs`, but declare only `name`,
  `full_name` and `hash`. They do not declare the base table's `type`.
- The proxy equality `type = tag` / `type = branch` is declared but never
  applied. A `tags` query therefore walks every reference.

## Model

| member | source | states |
|---|---|---|
| Schema.IsValidTable | runtime/runtime.go:535-541 | passes exactly the five declared table names and otherwise fails with the unknown-table error for that name |
| Schema.Contains | runtime/runtime.go:553-558 | the linear search of a field list finds a field exactly when the list holds it |
| Schema.UseFieldFromTable | runtime/runtime.go:543-561 | an undeclared table fails as unknown table; on a declared table the wildcard always passes and any other field passes iff it is in the table's list, else fails naming table and field |
| Schema.WithTable | runtime/runtime.go:466-483 | succeeds iff the table is declared; on success the alias (the table name when empty) is bound to the table and every other binding is kept; on failure the map is unchanged and the error is unknown table |
| Schema.IsProxyTable | runtime/runtime.go:485-489 | exactly `tags` and `branches` are proxy tables, each a declared table over a declared base table |
| Schema.FirstBindingKeyIsTableName | runtime/runtime.go:294-298 | after the first binding made without an alias, the only key of the table map, the one the extractors validate against, is the table name |
| Schema.ProxyTablesOmitType | runtime/runtime.go:425-428 | `tags` and `branches` are declared proxies over `refs` whose only selecting field is `type`; their field lists are subsets of `refs`' and `type` is refused on them while accepted on `refs` |
| Dispatch.FindWalkType | runtime/runtime.go:79-93 | `commits`, `trees`, `remotes` select their walks, `refs`/`tags`/`branches` the reference walk, and any other name leaves the previous walk type |
| Dispatch.WalkType.Code | runtime/runtime.go:12-17 | the walk kinds carry codes up to 4, and code 0 is the unset walk type of a fresh builder |
| Dispatch.CodesIdentifyWalks | runtime/runtime.go:12-17 | no two walk kinds share a code, so the switch on the code picks one walk |
| Dispatch.DeclaredTablesDispatchByName | runtime/runtime.go:81-90 | on a declared table the dispatch does not depend on the previous walk type and is never the tree walk or unset |
| Dispatch.ProxyDispatchesThroughBase | runtime/runtime.go:88-89 | a proxy table dispatches exactly as its base table |
| Dispatch.TreeWalkOnlyForUndeclaredTable | runtime/runtime.go:501-507 | the tree walk is only chosen for a name table validation refuses, since `trees` is not declared |
| Extract.IndexRune | runtime/runtime.go:362 | -1 iff the character is absent; otherwise the index of its first occurrence |
| Extract.FirstLine | runtime/runtime.go:358-366 | the first line is a prefix of the message with no line break, followed in the message by a break unless it is the whole message |
| Extract.FirstLineOfBrokenMessage | runtime/runtime.go:360-365 | a break-free line followed by a break and any text has that line as first line |
| Extract.FirstLineIdentity | runtime/runtime.go:363-366 | a message is its own first line exactly when it holds no line break |
| Extract.MetadataCommit | runtime/runtime.go:333-372 | validation errors come first; a validated field extracts iff it is one of the eight commit cases, else the not-implemented error; each case yields its commit part, and `message` is the first line of the message |
| Extract.MetadataReference | runtime/runtime.go:293-331 | validation errors first; `name`, `full_name` and `hash` always extract; `hash` is `"NULL"` exactly when there is no target, else the target; `type` is branch, remote or tag in that priority, and fails naming the reference when none fits; other validated fields are not implemented |
| Extract.MetadataRemote | runtime/runtime.go:374-400 | validation errors first; a validated field extracts iff it is one of the four remote cases, each yielding its part, else the not-implemented error |
| Extract.Metadata | runtime/runtime.go:274-287 | extraction from whichever entity is under test: a validation error whatever the entity, and a value only for a field the table declares, never for the wildcard |
| Extract.DeclaredFieldsExtract | runtime/runtime.go:491-533 | every field a table declares extracts on its table, except `type` on a reference no classification fits |
| Extract.MessageIsFirstLineOfFullMessage | runtime/runtime.go:356-366 | on `commits`, the only table declaring them, both `message` and `full_message` extract, and the former is the first line of the latter |
| Extract.NullHashIffNoTarget | runtime/runtime.go:308-313 | on a table that accepts `hash`, the reference hash extracts and is `"NULL"` exactly when the reference has no target |
| Pipeline.ProjectRow | runtime/runtime.go:163-166 | a row succeeds iff every requested field extracts; its keys are exactly the requested fields, each with its extracted value; a failure is the first failing field's error |
| Pipeline.StreamStopsAtQuota | runtime/runtime.go:153-173 | a walk visits at most the walker's entities and returns at most `quota` rows, one per accepted entity visited; it stops before the walker's end only right after accepting the `quota`-th entity, and every entity it visits has fewer than `quota` accepted ones before it, so nothing after the `quota`-th accepted entity is visited |
| Pipeline.StreamFailsAtFirstUnloaded | runtime/runtime.go:195-199 | the first walker step that fails to load ends the walk with its error exactly when fewer than `quota` accepted entities precede it; otherwise the walk succeeds without reaching it |
| Pipeline.StreamTakesFirstMatches | runtime/runtime.go:195-216 | with a walker that never fails, the rows are the projections of the first `min(quota, #accepted)` accepted entities, in walker order |
| Pipeline.StreamRowsHaveFieldKeys | runtime/runtime.go:204-209 | every returned row is keyed by exactly the projected fields and is the projection of an accepted, loaded entity |
| Pipeline.WalkRows | runtime/runtime.go:103-132 | the loop with preallocation, append, counter and slice computes the reference walk with quota `max(limit, 1)` (over the first entity only for the commit walk at limit 0); for `limit >= 1` it is exactly the reference walk with quota `limit`, so the slice is the appended rows |
| Pipeline.WalkRowsBounded | runtime/runtime.go:118-124 | the corrected walk is the reference walk with quota `limit`, returns at most `limit` rows, and nothing at all for limit 0 |
| Pipeline.LimitZeroCounterexample | runtime/runtime.go:209-214 | as written, `LIMIT 0` on one remote with no filter returns that remote's row after one step |
| Ordering.InnerPass | runtime/runtime.go:262-268 | the inner swap loop as written keeps the length and the multiset of rows |
| Ordering.OuterPass | runtime/runtime.go:261-269 | the outer swap loop as written keeps the length and the multiset of rows |
| Ordering.Comparator | runtime/runtime.go:243-248 | the comparison chosen by the direction is fit for sorting whenever the parser's greater-than and smaller-than are |
| Ordering.OrderTable | runtime/runtime.go:235-272 | no order returns the rows unchanged; an order field the table refuses is that validation error; otherwise the result is a permutation of the rows, the one the as-written loops compute |
| Ordering.SortSeq | runtime/runtime.go:261-269 | the swap loop comparing against the current outer element always permutes, and sorts whenever the ranking is a strict weak order |
| Ordering.OrderRows | runtime/runtime.go:235-272 | as `OrderTable` for no order and for validation; otherwise a permutation in which, under a comparator that is a strict weak order, no row's cell is ranked above (greater for ascending, smaller for descending) a later row's cell |
| Ordering.RowRankIsStrictWeakOrder | runtime/runtime.go:263 | ranking rows by a strict weak comparator on a field's printed value is a strict weak order on rows |
| Ordering.AsWrittenOrderExample | runtime/runtime.go:261-269 | as written, ascending keys 2, 3, 0, 1 come out as 0, 2, 1, 3 |
| Ordering.AsWrittenOrderDoesNotSort | runtime/runtime.go:239-242 | the as-written loops leave that input unsorted under a strict weak order |
| Runtime.ProjectedFields | runtime/runtime.go:104-107 | the query's own fields, or under a wildcard every field the table declares, each one the table validates and none the wildcard itself |
| Runtime.WalkFor | runtime/runtime.go:63-76 | a walk runs exactly for a declared table: `commits` reads the commit walker and compares the limit after every entity, `refs`/`tags`/`branches` read the reference iterator and `remotes` the remote loader, both comparing after a match; only the remote walk can fail to load |
| Runtime.RemoteLoadFailsBeforeLimit | runtime/runtime.go:195-214 | the loop as written fails a `remotes` query with the load failure of the first unloadable remote exactly when fewer than `max(limit, 1)` accepted remotes are listed before it, so at `LIMIT 0` it still loads the first remote; the corrected loop does so exactly when fewer than `limit` are |
| Runtime.AsWrittenWalkAgreesAboveZero | runtime/runtime.go:118-124 | for a positive limit the walk as written and the corrected walk are the same |
| Runtime.ExecuteAsWritten | runtime/runtime.go:56-77 | an undeclared table, `trees` included, fails with the unknown-table error of the binding before any walk; a fatal walk error is the query's result; without an order the rows are the as-written walk's; with one, the order field's validation decides failure, with its error, and the rows are the as-written swap loops' permutation of the walk's, at most `max(limit, 1)` |
| Runtime.Execute | runtime/runtime.go:56-77 | with the corrected zero limit and the corrected orderer, an undeclared table, `trees` included, fails with the unknown-table error of the binding before any walk; a fatal walk error is the query's result; without an order the rows are the walk's; with one, the order field's validation decides failure, with its error; the rows are a permutation of the walk's, at most `limit`, keyed by exactly the projected fields, each from an accepted entity, and ordered under a strict weak comparator |
| Runtime.WildcardRowsCarryDeclaredFields | runtime/runtime.go:104-107 | under a wildcard every row of a declared table carries exactly the table's declared fields, otherwise exactly the requested fields |

## Left out

- Repository I/O is not modelled: opening the repository, the commit walk (`Walk`, `PushHead`, `Sorting`), the reference iterator, `ListRemotes`, `LoadRemote` and `Owner().Path()`. The walkers' outputs are inputs. A failing `LoadRemote` is modelled; failures of `NewReferenceIterator` and `ListRemotes` before any walk are not, because they happen before the modelled loop starts.
- The commit walk's iteration error is not modelled: the source only prints it, and a sequence of commits cannot fail.
- The date field is the committer's `when` taken as an already formatted string. The time library's formatting is not modelled.
- The WHERE clause evaluation (`VisitExpr` and the `boolRegister` global) is not modelled; it is an abstract predicate on the entity. The parser's `NodeGreater` and `NodeSmaller` assertions are abstract comparators on the printed cell values.
- A cell missing from a row prints as `<nil>` under `%v`; the model's `Cell` uses that text. Other `%v` formatting is not needed, because every cell is a string.
- `printTable` rendering is not modelled, and neither is process exit: a fatal error is an `Err` result.
- `walkTrees` and `metadataTree` are empty stubs and are not modelled: `trees` is not a declared table, so the binding refuses it before dispatch (`Dispatch.TreeWalkOnlyForUndeclaredTable`).
- The global `repo` and `builder` state is not modelled; it is threaded explicitly. The extractors and the orderer validate against the first key of the builder's table map. The model passes the bound table's name instead. For a query bound without an alias that key is the table name (`Schema.FirstBindingKeyIsTableName`); an aliased binding is not modelled.
- `metadata`, the dispatch of an extraction by the current walk type, is modelled as dispatch on the entity's kind. Its fatal `GOD!` branch cannot arise there, because every entity has a walk kind.
- The semantic visitor that runs before the walk is modelled only by its binding step: both executions first bind the queried table with `Schema.WithTable`, without an alias, and stop with its unknown-table error. The visitor's field checks are not modelled; in the model, a field the table does not declare fails when the first accepted entity is projected.
- Runtime.Execute: composes the corrected zero-limit walk and the corrected orderer, so it promises sorted rows and an empty result at `LIMIT 0`, which the runtime as written does not deliver. `Runtime.ExecuteAsWritten` states what the runtime as written returns.
- The limit is a natural number. A negative limit makes the runtime's row preallocation (`make`) panic before any walk, and the model does not represent it.
- Strings are modelled as sequences of characters. Go strings are byte sequences, and `strings.IndexRune` returns a byte offset that slices bytes. The first line of a message is the same either way, because a line break is a single byte in UTF-8.

## Findings

| source | as written | input that shows it | evidently intended | confidence | as-written member | corrected member |
|---|---|---|---|---|---|---|
| runtime/runtime.go:194-214 | the limit test follows the append (in the commit walk at 108-124, each commit), so `counter` passes `limit` only after a row is appended: `LIMIT 0` still returns one row | `SELECT name FROM remotes LIMIT 0` on a repository with one remote `origin`: one row `origin` | `LIMIT 0` returns no rows and visits no entity | not executed | Pipeline.LimitZeroCounterexample | Pipeline.WalkRowsBounded |
| runtime/runtime.go:261-263 | the comparison uses `row`, the value captured when the outer iteration began, not the current `rows[i]`, so the result need not be sorted | ascending order on keys 2, 3, 0, 1 gives 0, 2, 1, 3 | the rows sorted on the field, as the comment at lines 239-242 says | not executed | Ordering.AsWrittenOrderDoesNotSort | Ordering.OrderRows |

=== FILE: dispatch.dfy ===
/** The walk dispatcher: the choice of entity walker from the queried table. */
module Dispatch {
  import Schema

  /** The walk kinds. `Unset` is the zero value a fresh builder holds; the others
      carry the codes 1 to 4 of the runtime's constants. */
  datatype WalkType = Unset | WalkCommits | WalkTrees | WalkReferences | WalkRemotes {
    function Code(): (c: nat)
      ensures c <= 4
      ensures c == 0 <==> this == Unset
    {
      match this
      case Unset => 0
      case WalkCommits => 1
      case WalkTrees => 2
      case WalkReferences => 3
      case WalkRemotes => 4
    }
  }

  /** The builder's walk type after dispatching on the first queried table; a name
      the switch does not list leaves the previous walk type in place. */
  function FindWalkType(table: string, current: WalkType): (w: WalkType)
    ensures table == "commits" ==> w == WalkCommits
    ensures table == "trees" ==> w == WalkTrees
    ensures table == "remotes" ==> w == WalkRemotes
    ensures table in {"refs", "tags", "branches"} ==> w == WalkReferences
    ensures table !in {"commits", "trees", "remotes", "refs", "tags", "branches"} ==> w == current
  {
    if table == "commits" then WalkCommits
    else if table == "trees" then WalkTrees
    else if table == "remotes" then WalkRemotes
    else if table == "refs" || table == "tags" || table == "branches" then WalkReferences
    else current
  }

  /** The codes tell the walk kinds apart, so the runtime's switch on the code
      picks exactly one walk. */
  lemma CodesIdentifyWalks(a: WalkType, b: WalkType)
    ensures a.Code() == b.Code() <==> a == b
  {
  }

  /** On every declared table the dispatch is decided by the table alone, and it
      never selects the tree walk or leaves the walk unset. */
  lemma DeclaredTablesDispatchByName(table: string, c1: WalkType, c2: WalkType)
    requires table in Schema.PossibleTables
    ensures FindWalkType(table, c1) == FindWalkType(table, c2)
    ensures FindWalkType(table, c1) !in {Unset, WalkTrees}
  {
  }

  /** A proxy table dispatches exactly as its base table does. */
  lemma ProxyDispatchesThroughBase(p: string, current: WalkType)
    requires Schema.IsProxyTable(p)
    ensures FindWalkType(p, current) == FindWalkType(Schema.ProxyTables[p].table, current)
  {
  }

  /** The tree walk is only selected for a name the registry refuses. */
  lemma TreeWalkOnlyForUndeclaredTable(table: string, current: WalkType)
    requires current != WalkTrees && FindWalkType(table, current) == WalkTrees
    ensures Schema.IsValidTable(table).Fail?
  {
  }
}

=== FILE: entities.dfy ===
/** The repository records the runtime reads, with the repository library's
    accessors replaced by plain fields. */
module Entities {
  import opened Results

  predicate IsHexDigit(c: char) {
    '0' <= c <= '9' || 'a' <= c <= 'f'
  }

  /** An object id in the 40-digit lower-case hexadecimal form the library prints. */
  type ObjectId = s: string | |s| == 40 && forall i :: 0 <= i < |s| ==> IsHexDigit(s[i])
    witness "0000000000000000000000000000000000000000"

  /** An author or committer signature; `when` is the already formatted date. */
  datatype Signature = Signature(name: string, email: string, when: string)

  datatype Commit = Commit(id: ObjectId, author: Signature, committer: Signature, message: string)

  /** A reference: short and full names, the target (absent for a symbolic
      reference that resolves to nothing) and the library's three classifications. */
  datatype Reference = Reference(
    shorthand: string,
    name: string,
    target: Option<ObjectId>,
    isBranch: bool,
    isRemote: bool,
    isTag: bool)

  /** A loaded remote; `ownerPath` is the path of the repository that owns it. */
  datatype Remote = Remote(name: string, url: string, pushUrl: string, ownerPath: string)

  /** The entity under test, one variant per walk kind. */
  datatype Entity =
    | CommitEntity(commit: Commit)
    | ReferenceEntity(reference: Reference)
    | RemoteEntity(remote: Remote)
}

=== FILE: extract.dfy ===
/** The field extractors: from a field name and an entity to the field's string
    value. Each first validates the field against the bound table and fails on a
    validated field it has no case for. */
module Extract {
  import opened Results
  import opened Schema
  import opened Entities

  const BranchType := "branch"
  const RemoteType := "remote"
  const TagType := "tag"

  /** What the reference `hash` field shows for a reference without a target. */
  const NullHash := "NULL"

  /** The fields each extractor has a case for. */
  const CommitCases := {"hash", "author", "author_email", "committer", "committer_email",
                        "date", "full_message", "message"}
  const ReferenceCases := {"name", "full_name", "hash", "type"}
  const RemoteCases := {"name", "url", "push_url", "owner"}

  /** The index of the first occurrence of `c` in `s`, or -1. */
  function IndexRune(s: string, c: char): (idx: int)
    ensures idx == -1 <==> c !in s
    ensures idx != -1 ==> 0 <= idx < |s| && s[idx] == c && c !in s[..idx]
    decreases |s|
  {
    if |s| == 0 then -1
    else if s[0] == c then 0
    else
      var k := IndexRune(s[1..], c);
      if k == -1 then -1 else k + 1
  }

  /** The first line of a commit message: the longest prefix without a line break. */
  function FirstLine(message: string): (line: string)
    ensures line <= message
    ensures '\n' !in line
    ensures |line| < |message| ==> message[|line|] == '\n'
  {
    var idx := IndexRune(message, '\n');
    if idx != -1 then message[..idx] else message
  }

  /** A message made of a line, a break and anything else has that line as first line. */
  lemma FirstLineOfBrokenMessage(line: string, rest: string)
    requires '\n' !in line
    ensures FirstLine(line + "\n" + rest) == line
  {
    var m := line + "\n" + rest;
    assert m[|line|] == '\n';
    assert m[..|line|] == line;
    FirstOccurrenceUnique(m, '\n', IndexRune(m, '\n'), |line|);
  }

  /** Two first occurrences of the same character are the same index. */
  lemma FirstOccurrenceUnique(s: string, c: char, i: nat, k: nat)
    requires i < |s| && s[i] == c && c !in s[..i]
    requires k < |s| && s[k] == c && c !in s[..k]
    ensures i == k
  {
  }

  /** A message is its own first line exactly when it holds no line break. */
  lemma FirstLineIdentity(message: string)
    ensures FirstLine(message) == message <==> '\n' !in message
  {
  }

  /** The commit extractor. */
  function MetadataCommit(field: string, table: string, c: Commit): (r: Result<string>)
    ensures r.Ok? ==> UseFieldFromTable(field, table).Pass? && field in CommitCases
    ensures UseFieldFromTable(field, table).Pass? && field in CommitCases ==> r.Ok?
    ensures UseFieldFromTable(field, table).Fail? ==> r == Err(UseFieldFromTable(field, table).error)
    ensures UseFieldFromTable(field, table).Pass? && field !in CommitCases ==>
      r == Err(UnimplementedField(field))
    ensures r.Ok? && field == "hash" ==> r.value == c.id
    ensures r.Ok? && field == "author" ==> r.value == c.author.name
    ensures r.Ok? && field == "author_email" ==> r.value == c.author.email
    ensures r.Ok? && field == "committer" ==> r.value == c.committer.name
    ensures r.Ok? && field == "committer_email" ==> r.value == c.committer.email
    ensures r.Ok? && field == "date" ==> r.value == c.committer.when
    ensures r.Ok? && field == "full_message" ==> r.value == c.message
    ensures r.Ok? && field == "message" ==>
      r.value <= c.message && '\n' !in r.value
      && (|r.value| < |c.message| ==> c.message[|r.value|] == '\n')
  {
    var check := UseFieldFromTable(field, table);
    if check.Fail? then Err(check.error)
    else
      if field == "hash" then Ok(c.id)
      else if field == "author" then Ok(c.author.name)
      else if field == "author_email" then Ok(c.author.email)
      else if field == "committer" then Ok(c.committer.name)
      else if field == "committer_email" then Ok(c.committer.email)
      else if field == "date" then Ok(c.committer.when)
      else if field == "full_message" then Ok(c.message)
      else if field == "message" then Ok(FirstLine(c.message))
      else Err(UnimplementedField(field))
  }

  /** The reference extractor. */
  function MetadataReference(field: string, table: string, ref: Reference): (r: Result<string>)
    ensures UseFieldFromTable(field, table).Fail? ==> r == Err(UseFieldFromTable(field, table).error)
    ensures UseFieldFromTable(field, table).Pass? && field !in ReferenceCases ==>
      r == Err(UnimplementedField(field))
    ensures r.Ok? ==> UseFieldFromTable(field, table).Pass? && field in ReferenceCases
    ensures UseFieldFromTable(field, table).Pass? && field in {"name", "full_name", "hash"} ==> r.Ok?
    ensures r.Ok? && field == "name" ==> r.value == ref.shorthand
    ensures r.Ok? && field == "full_name" ==> r.value == ref.name
    ensures r.Ok? && field == "hash" ==>
      (r.value == NullHash <==> ref.target.None?)
      && (ref.target.Some? ==> r.value == ref.target.value)
    ensures UseFieldFromTable(field, table).Pass? && field == "type" ==>
      (r.Ok? <==> ref.isBranch || ref.isRemote || ref.isTag)
      && (r.Err? ==> r.error == UnclassifiedReference(ref.name))
    ensures r.Ok? && field == "type" ==>
      && (r.value == BranchType <==> ref.isBranch)
      && (r.value == RemoteType <==> !ref.isBranch && ref.isRemote)
      && (r.value == TagType <==> !ref.isBranch && !ref.isRemote && ref.isTag)
  {
    var check := UseFieldFromTable(field, table);
    if check.Fail? then Err(check.error)
    else
      if field == "name" then Ok(ref.shorthand)
      else if field == "full_name" then Ok(ref.name)
      else if field == "hash" then
        (match ref.target
         case None => Ok(NullHash)
         case Some(id) => Ok(id))
      else if field == "type" then
        if ref.isBranch then Ok(BranchType)
        else if ref.isRemote then Ok(RemoteType)
        else if ref.isTag then Ok(TagType)
        else Err(UnclassifiedReference(ref.name))
      else Err(UnimplementedField(field))
  }

  /** The remote extractor. */
  function MetadataRemote(field: string, table: string, remote: Remote): (r: Result<string>)
    ensures r.Ok? ==> UseFieldFromTable(field, table).Pass? && field in RemoteCases
    ensures UseFieldFromTable(field, table).Pass? && field in RemoteCases ==> r.Ok?
    ensures UseFieldFromTable(field, table).Fail? ==> r == Err(UseFieldFromTable(field, table).error)
    ensures UseFieldFromTable(field, table).Pass? && field !in RemoteCases ==>
      r == Err(UnimplementedField(field))
    ensures r.Ok? && field == "name" ==> r.value == remote.name
    ensures r.Ok? && field == "url" ==> r.value == remote.url
    ensures r.Ok? && field == "push_url" ==> r.value == remote.pushUrl
    ensures r.Ok? && field == "owner" ==> r.value == remote.ownerPath
  {
    var check := UseFieldFromTable(field, table);
    if check.Fail? then Err(check.error)
    else if field !in RemoteCases then Err(UnimplementedField(field))
    else
      if field == "name" then Ok(remote.name)
      else if field == "url" then Ok(remote.url)
      else if field == "push_url" then Ok(remote.pushUrl)
      else Ok(remote.ownerPath)
  }

  /** Extraction from whichever entity is under test. Validation decides first,
      whatever the entity; a value comes out only for a declared field, so never
      for the wildcard, which no extractor has a case for. */
  function Metadata(field: string, table: string, e: Entity): (r: Result<string>)
    ensures UseFieldFromTable(field, table).Fail? ==> r == Err(UseFieldFromTable(field, table).error)
    ensures r.Ok? ==> table in PossibleTables && field in PossibleTables[table]
    ensures field == Wildcard ==> r.Err?
  {
    match e
    case CommitEntity(c) => MetadataCommit(field, table, c)
    case ReferenceEntity(ref) => MetadataReference(field, table, ref)
    case RemoteEntity(remote) => MetadataRemote(field, table, remote)
  }

  /** No drift between schema and extractors: every declared field of `commits`
      and `remotes` extracts, and so does every declared field of `refs`, `tags`
      and `branches` except `type` on a reference none of the classifications fits. */
  lemma DeclaredFieldsExtract(field: string, c: Commit, ref: Reference, remote: Remote)
    ensures field in PossibleTables["commits"] ==> MetadataCommit(field, "commits", c).Ok?
    ensures field in PossibleTables["remotes"] ==> MetadataRemote(field, "remotes", remote).Ok?
    ensures forall t :: t in {"refs", "tags", "branches"} && field in PossibleTables[t] ==>
      (MetadataReference(field, t, ref).Ok? <==>
        field != "type" || ref.isBranch || ref.isRemote || ref.isTag)
  {
  }

  /** The `message` field is the first line of the `full_message` field. */
  lemma MessageIsFirstLineOfFullMessage(c: Commit)
    ensures MetadataCommit("message", "commits", c).Ok?
    ensures MetadataCommit("full_message", "commits", c).Ok?
    ensures MetadataCommit("message", "commits", c).value
      == FirstLine(MetadataCommit("full_message", "commits", c).value)
  {
  }

  /** A reference's `hash` field is the literal "NULL" exactly when it has no
      target: no object id prints as "NULL". */
  lemma NullHashIffNoTarget(table: string, ref: Reference)
    requires UseFieldFromTable("hash", table).Pass?
    ensures MetadataReference("hash", table, ref).Ok?
    ensures MetadataReference("hash", table, ref).value == NullHash <==> ref.target.None?
  {
  }
}

=== FILE: ordering.dfy ===
/** The result orderer: reorders the walked rows on one field with the query
    parser's comparison of the field's printed values. The swap loops are stated
    over any element type and ranking relation; the orderer instantiates them
    with rows ranked on their printed field values. */
module Ordering {
  import opened Results
  import opened Schema
  import Pipeline

  type Row = Pipeline.Row

  /** An ORDER BY clause: the field and the direction. */
  datatype OrderBy = OrderBy(field: string, asc: bool)

  /** What `%v` prints for a field the row does not hold. */
  const NilCell := "<nil>"

  /** The printed value of a row's field, as the comparison sees it. */
  function Cell(row: Row, field: string): (s: string)
    ensures field in row ==> s == row[field]
    ensures field !in row ==> s == NilCell
  {
    if field in row then row[field] else NilCell
  }

  /** The comparison the orderer swaps on: the parser's greater-than for an
      ascending clause, its smaller-than for a descending one. */
  function Comparator(order: OrderBy, greater: (string, string) -> bool,
                      smaller: (string, string) -> bool): (cmp: (string, string) -> bool)
    ensures StrictWeakOrder(greater) && StrictWeakOrder(smaller) ==> StrictWeakOrder(cmp)
  {
    if order.asc then greater else smaller
  }

  /** Rows ranked by the comparator on their printed `field` values. */
  function RowRank(cmp: (string, string) -> bool, field: string): (Row, Row) -> bool {
    (x: Row, y: Row) => cmp(Cell(x, field), Cell(y, field))
  }

  /** A ranking fit for sorting: irreflexive, transitive, and with a transitive
      incomparability (ties are allowed). */
  ghost predicate StrictWeakOrder<T(!new)>(outranks: (T, T) -> bool) {
    && (forall x :: !outranks(x, x))
    && (forall x, y, z :: outranks(x, y) && outranks(y, z) ==> outranks(x, z))
    && (forall x, y, z :: !outranks(x, y) && !outranks(y, z) ==> !outranks(x, z))
  }

  /** No element of `a[lo..hi]` outranks an element after it. */
  ghost predicate Sorted<T>(a: seq<T>, lo: nat, hi: nat, outranks: (T, T) -> bool) {
    forall p, q :: lo <= p < q < hi && q < |a| ==> !outranks(a[p], a[q])
  }

  /** Ranking rows on a field inherits the comparator's fitness for sorting. */
  lemma RowRankIsStrictWeakOrder(cmp: (string, string) -> bool, field: string)
    requires StrictWeakOrder(cmp)
    ensures StrictWeakOrder(RowRank(cmp, field))
  {
    var rank := RowRank(cmp, field);
    forall x: Row
      ensures !rank(x, x)
    {
      assert !cmp(Cell(x, field), Cell(x, field));
    }
    forall x: Row, y: Row, z: Row | !rank(x, y) && !rank(y, z)
      ensures !rank(x, z)
    {
      assert !cmp(Cell(x, field), Cell(y, field)) && !cmp(Cell(y, field), Cell(z, field));
    }
    forall x: Row, y: Row, z: Row | rank(x, y) && rank(y, z)
      ensures rank(x, z)
    {
      assert cmp(Cell(x, field), Cell(y, field)) && cmp(Cell(y, field), Cell(z, field));
    }
  }

  function Swap<T>(a: seq<T>, i: nat, j: nat): (b: seq<T>)
    requires i < |a| && j < |a|
    ensures |b| == |a| && b[i] == a[j] && b[j] == a[i]
    ensures forall k :: 0 <= k < |a| && k != i && k != j ==> b[k] == a[k]
    ensures multiset(b) == multiset(a)
  {
    a[i := a[j]][j := a[i]]
  }

  /** The inner loop as written, from position `j` on: `pivot` is the value the
      outer loop read at position `i` when its iteration began, and every later
      element that outranks it is swapped with position `i`. */
  function InnerPass<T>(a: seq<T>, i: nat, pivot: T, j: nat, outranks: (T, T) -> bool)
    : (b: seq<T>)
    requires i < |a| && j <= |a|
    ensures |b| == |a| && multiset(b) == multiset(a)
    decreases |a| - j
  {
    if j == |a| then a
    else
      var next := if outranks(a[j], pivot) then Swap(a, i, j) else a;
      InnerPass(next, i, pivot, j + 1, outranks)
  }

  /** The outer loop as written, from position `i` on. */
  function OuterPass<T>(a: seq<T>, i: nat, outranks: (T, T) -> bool): (b: seq<T>)
    requires i <= |a|
    ensures |b| == |a| && multiset(b) == multiset(a)
    decreases |a| - i
  {
    if i == |a| then a
    else OuterPass(InnerPass(a, i, a[i], 0, outranks), i + 1, outranks)
  }

  /** The orderer as written: no clause returns the rows unchanged; otherwise the
      field is validated against the bound table and the nested swap loop runs,
      comparing each row with the outer row's value captured before the inner loop. */
  method OrderTable(rows: seq<Row>, order: Option<OrderBy>, table: string,
                    greater: (string, string) -> bool, smaller: (string, string) -> bool)
    returns (r: Result<seq<Row>>)
    ensures order.None? ==> r == Ok(rows)
    ensures order.Some? ==>
      (r.Err? <==> UseFieldFromTable(order.value.field, table).Fail?)
      && (r.Err? ==> r.error == UseFieldFromTable(order.value.field, table).error)
    ensures r.Ok? ==> |r.value| == |rows| && multiset(r.value) == multiset(rows)
    ensures order.Some? && r.Ok? ==>
      r.value == OuterPass(rows, 0, RowRank(Comparator(order.value, greater, smaller),
                                            order.value.field))
  {
    if order.None? {
      return Ok(rows);
    }
    var field := order.value.field;
    var check := UseFieldFromTable(field, table);
    if check.Fail? {
      return Err(check.error);
    }
    var rank := RowRank(Comparator(order.value, greater, smaller), field);
    var a := rows;
    var i := 0;
    while i < |a|
      invariant i <= |a| == |rows| && multiset(a) == multiset(rows)
      invariant OuterPass(a, i, rank) == OuterPass(rows, 0, rank)
      decreases |a| - i
    {
      var row := a[i];
      ghost var start := a;
      var j := 0;
      while j < |a|
        invariant j <= |a| == |rows| && multiset(a) == multiset(rows)
        invariant InnerPass(a, i, row, j, rank) == InnerPass(start, i, row, 0, rank)
        decreases |a| - j
      {
        if rank(a[j], row) {
          a := Swap(a, i, j);
        }
        j := j + 1;
      }
      i := i + 1;
    }
    return Ok(a);
  }

  /** The swap step with the comparison the orderer evidently intends: against
      the element at position `i` now, not the one captured before the inner loop. */
  function FixedStep<T>(a: seq<T>, i: nat, j: nat, outranks: (T, T) -> bool): (b: seq<T>)
    requires i < |a| && j < |a|
    ensures |b| == |a| && multiset(b) == multiset(a)
  {
    if outranks(a[j], a[i]) then Swap(a, i, j) else a
  }

  /** Before outer iteration `i`: the first `i` elements are in order and, once one
      iteration has run, the element at `i - 1` is outranked by nothing. */
  ghost predicate OuterInv<T>(a: seq<T>, i: nat, outranks: (T, T) -> bool) {
    && i <= |a|
    && Sorted(a, 0, i, outranks)
    && (0 < i ==> forall l :: 0 <= l < |a| ==> !outranks(a[l], a[i - 1]))
  }

  /** Before inner iteration `j` of outer iteration `i`. While `j <= i` the inner
      loop inserts the element at `i` into the ordered prefix, carrying the
      largest element seen at `i`; from `j = i` on, position `i` holds an element
      nothing before `j` outranks, and for `i > 0` nothing at all outranks it. */
  ghost predicate InnerInv<T>(a: seq<T>, i: nat, j: nat, outranks: (T, T) -> bool) {
    && i < |a| && j <= |a|
    && (j <= i ==> Sorted(a, 0, i, outranks))
    && (j <= i ==> forall k :: 0 <= k < j ==> !outranks(a[k], a[i]))
    && (j < i ==> forall l :: 0 <= l < |a| ==> !outranks(a[l], a[i - 1]))
    && (i <= j ==> Sorted(a, 0, i + 1, outranks))
    && (i <= j ==> forall l :: 0 <= l < j ==> !outranks(a[l], a[i]))
    && (0 < i <= j ==> forall l :: j <= l < |a| ==> !outranks(a[l], a[i]))
  }

  lemma InnerStart<T>(a: seq<T>, i: nat, outranks: (T, T) -> bool)
    requires OuterInv(a, i, outranks) && i < |a|
    ensures InnerInv(a, i, 0, outranks)
  {
  }

  lemma InnerEnd<T>(a: seq<T>, i: nat, outranks: (T, T) -> bool)
    requires i < |a| && InnerInv(a, i, |a|, outranks)
    ensures OuterInv(a, i + 1, outranks)
  {
  }

  /** One inner step keeps the inner invariant. */
  lemma InnerStep<T(!new)>(a: seq<T>, i: nat, j: nat, outranks: (T, T) -> bool)
    requires StrictWeakOrder(outranks)
    requires InnerInv(a, i, j, outranks) && j < |a|
    ensures InnerInv(FixedStep(a, i, j, outranks), i, j + 1, outranks)
  {
  }

  /** The nested swap loop with the evidently intended comparison: the sequence is
      always permuted, and sorted whenever the ranking is a strict weak order. */
  method SortSeq<T(!new)>(s: seq<T>, outranks: (T, T) -> bool) returns (a: seq<T>)
    ensures |a| == |s| && multiset(a) == multiset(s)
    ensures StrictWeakOrder(outranks) ==> Sorted(a, 0, |a|, outranks)
  {
    ghost var ordered := StrictWeakOrder(outranks);
    a := s;
    var i := 0;
    while i < |a|
      invariant i <= |a| == |s| && multiset(a) == multiset(s)
      invariant ordered ==> OuterInv(a, i, outranks)
      decreases |a| - i
    {
      if ordered {
        InnerStart(a, i, outranks);
      }
      var j := 0;
      while j < |a|
        invariant j <= |a| == |s| && multiset(a) == multiset(s)
        invariant ordered ==> InnerInv(a, i, j, outranks)
        decreases |a| - j
      {
        if ordered {
          InnerStep(a, i, j, outranks);
        }
        if outranks(a[j], a[i]) {
          a := Swap(a, i, j);
        }
        j := j + 1;
      }
      if ordered {
        InnerEnd(a, i, outranks);
      }
      i := i + 1;
    }
  }

  /** The orderer as evidently intended: the same validation, then the swap loop
      comparing against the current row at the outer position. With a comparator
      that is a strict weak order, no row precedes one it ranks after: ascending
      under `greater`, descending under `smaller`. */
  method OrderRows(rows: seq<Row>, order: Option<OrderBy>, table: string,
                   greater: (string, string) -> bool, smaller: (string, string) -> bool)
    returns (r: Result<seq<Row>>)
    ensures order.None? ==> r == Ok(rows)
    ensures order.Some? ==>
      (r.Err? <==> UseFieldFromTable(order.value.field, table).Fail?)
      && (r.Err? ==> r.error == UseFieldFromTable(order.value.field, table).error)
    ensures r.Ok? ==> |r.value| == |rows| && multiset(r.value) == multiset(rows)
    ensures order.Some? && r.Ok? && StrictWeakOrder(Comparator(order.value, greater, smaller)) ==>
      forall p, q :: 0 <= p < q < |r.value| ==>
        !Comparator(order.value, greater, smaller)(Cell(r.value[p], order.value.field),
                                                   Cell(r.value[q], order.value.field))
  {
    if order.None? {
      return Ok(rows);
    }
    var field := order.value.field;
    var check := UseFieldFromTable(field, table);
    if check.Fail? {
      return Err(check.error);
    }
    var cmp := Comparator(order.value, greater, smaller);
    var rank := RowRank(cmp, field);
    if StrictWeakOrder(cmp) {
      RowRankIsStrictWeakOrder(cmp, field);
    }
    var a := SortSeq(rows, rank);
    return Ok(a);
  }

  /** The integer order, the ranking the counterexample below uses. */
  function Greater(x: int, y: int): bool {
    x > y
  }

  lemma GreaterIsStrictWeakOrder()
    ensures StrictWeakOrder(Greater)
  {
  }

  /** `a` holds exactly the four given integers. */
  predicate Holds4(a: seq<int>, w: int, x: int, y: int, z: int) {
    |a| == 4 && a[0] == w && a[1] == x && a[2] == y && a[3] == z
  }

  /** One inner iteration, unfolded. */
  lemma InnerUnfold<T>(a: seq<T>, i: nat, pivot: T, j: nat, outranks: (T, T) -> bool)
    requires i < |a| && j < |a|
    ensures InnerPass(a, i, pivot, j, outranks)
      == InnerPass(if outranks(a[j], pivot) then Swap(a, i, j) else a, i, pivot, j + 1, outranks)
  {
  }

  /** Outer iteration 0 of the counterexample: the captured value is 2. */
  lemma ExampleOuter0(a: seq<int>)
    requires Holds4(a, 2, 3, 0, 1)
    ensures Holds4(InnerPass(a, 0, a[0], 0, Greater), 3, 2, 0, 1)
  {
    InnerUnfold(a, 0, 2, 0, Greater);
    InnerUnfold(a, 0, 2, 1, Greater);
    var b := Swap(a, 0, 1);
    InnerUnfold(b, 0, 2, 2, Greater);
    InnerUnfold(b, 0, 2, 3, Greater);
  }

  /** Outer iteration 1: 3 outranks the captured 2 and moves back to position 1. */
  lemma ExampleOuter1(a: seq<int>)
    requires Holds4(a, 3, 2, 0, 1)
    ensures Holds4(InnerPass(a, 1, a[1], 0, Greater), 2, 3, 0, 1)
  {
    InnerUnfold(a, 1, 2, 0, Greater);
    var b := Swap(a, 1, 0);
    InnerUnfold(b, 1, 2, 1, Greater);
    var c := Swap(b, 1, 1);
    assert Holds4(c, 2, 3, 0, 1);
    InnerUnfold(c, 1, 2, 2, Greater);
    InnerUnfold(c, 1, 2, 3, Greater);
  }

  /** Outer iteration 2: the captured value is 0, so once 3 sits at position 2
      the comparison still swaps 1 in after it. */
  lemma ExampleOuter2(a: seq<int>)
    requires Holds4(a, 2, 3, 0, 1)
    ensures Holds4(InnerPass(a, 2, a[2], 0, Greater), 0, 2, 1, 3)
  {
    InnerUnfold(a, 2, 0, 0, Greater);
    var b := Swap(a, 2, 0);
    assert Holds4(b, 0, 3, 2, 1);
    InnerUnfold(b, 2, 0, 1, Greater);
    var c := Swap(b, 2, 1);
    assert Holds4(c, 0, 2, 3, 1);
    InnerUnfold(c, 2, 0, 2, Greater);
    var d := Swap(c, 2, 2);
    assert Holds4(d, 0, 2, 3, 1);
    InnerUnfold(d, 2, 0, 3, Greater);
    var e := Swap(d, 2, 3);
    assert Holds4(e, 0, 2, 1, 3);
  }

  /** Outer iteration 3: nothing outranks the captured 3. */
  lemma ExampleOuter3(a: seq<int>)
    requires Holds4(a, 0, 2, 1, 3)
    ensures InnerPass(a, 3, a[3], 0, Greater) == a
  {
    InnerUnfold(a, 3, 3, 0, Greater);
    InnerUnfold(a, 3, 3, 1, Greater);
    InnerUnfold(a, 3, 3, 2, Greater);
    InnerUnfold(a, 3, 3, 3, Greater);
  }

  /** One outer iteration, unfolded. */
  lemma OuterUnfold<T>(a: seq<T>, i: nat, outranks: (T, T) -> bool)
    requires i < |a|
    ensures OuterPass(a, i, outranks) == OuterPass(InnerPass(a, i, a[i], 0, outranks), i + 1, outranks)
  {
  }

  /** The orderer as written, ascending on the keys 2, 3, 0, 1, returns 0, 2, 1, 3. */
  lemma AsWrittenOrderExample(keys: seq<int>)
    requires Holds4(keys, 2, 3, 0, 1)
    ensures Holds4(OuterPass(keys, 0, Greater), 0, 2, 1, 3)
  {
    OuterUnfold(keys, 0, Greater);
    ExampleOuter0(keys);
    var a1 := InnerPass(keys, 0, keys[0], 0, Greater);
    OuterUnfold(a1, 1, Greater);
    ExampleOuter1(a1);
    var a2 := InnerPass(a1, 1, a1[1], 0, Greater);
    OuterUnfold(a2, 2, Greater);
    ExampleOuter2(a2);
    var a3 := InnerPass(a2, 2, a2[2], 0, Greater);
    OuterUnfold(a3, 3, Greater);
    ExampleOuter3(a3);
    assert OuterPass(a3, 4, Greater) == a3;
  }

  /** The orderer as written does not sort: under a strict weak order, ascending
      on the keys 2, 3, 0, 1, it leaves 2 before 1. */
  lemma AsWrittenOrderDoesNotSort(keys: seq<int>)
    requires Holds4(keys, 2, 3, 0, 1)
    ensures StrictWeakOrder(Greater)
    ensures !Sorted(OuterPass(keys, 0, Greater), 0, |keys|, Greater)
  {
    GreaterIsStrictWeakOrder();
    AsWrittenOrderExample(keys);
    var r := OuterPass(keys, 0, Greater);
    assert Greater(r[1], r[2]);
  }
}

=== FILE: pipeline.dfy ===
/** The filter / project / limit loop shared by the commit, reference and remote
    walks: each walked entity is checked against the query's predicate, a matching one
    is projected into a row, and the walk stops once the limit is reached. */
module Pipeline {
  import opened Results
  import opened Entities
  import opened Extract

  /** A result row: requested field name to extracted value. */
  type Row = map<string, string>

  /** One walker step: an entity, or the failure to load it (only remotes can fail). */
  datatype Fetch = Fetched(entity: Entity) | FetchFailed(error: Error)

  /** Where a walk tests the limit: the commit walk after every entity, the
      reference and remote walks only after a match. */
  datatype StopRule = AfterEveryEntity | AfterMatch

  /** The outcome of a walk: the rows or the fatal error, and the walker steps taken. */
  datatype Run = Run(result: Result<seq<Row>>, visited: nat)

  function Min(a: nat, b: nat): nat {
    if a <= b then a else b
  }

  /** Projects the requested fields of one entity into a row; the first field whose
      extraction fails, in field order, ends the query. */
  function ProjectRow(fields: seq<string>, table: string, e: Entity): (r: Result<Row>)
    ensures r.Ok? <==> forall f :: f in fields ==> Metadata(f, table, e).Ok?
    ensures r.Ok? ==> r.value.Keys == set f | f in fields
    ensures r.Ok? ==> forall f :: f in fields ==> Metadata(f, table, e) == Ok(r.value[f])
    ensures r.Err? ==>
      exists k :: 0 <= k < |fields| && Metadata(fields[k], table, e) == Err(r.error)
        && forall k' :: 0 <= k' < k ==> Metadata(fields[k'], table, e).Ok?
    decreases |fields|
  {
    if |fields| == 0 then Ok(map[])
    else
      var v := Metadata(fields[0], table, e);
      if v.Err? then Err(v.error)
      else
        var rest := ProjectRow(fields[1..], table, e);
        if rest.Err? then
          assert Metadata(fields[0], table, e).Ok?;
          rest
        else
          Ok(rest.value[fields[0] := v.value])
  }

  /** Prepends rows and walker steps already taken to the rest of a walk. */
  function Then(prefix: seq<Row>, steps: nat, rest: Run): Run {
    Run(if rest.result.Ok? then Ok(prefix + rest.result.value) else rest.result,
        steps + rest.visited)
  }

  /** The reference semantics of a walk with room for `quota` rows: take the walker's
      entities in order, project each one the predicate accepts, and stop right
      after the `quota`-th row, at the first failed load or at the first failed
      projection. */
  function Stream(src: seq<Fetch>, matches: Entity -> bool, fields: seq<string>, table: string,
                  quota: nat): Run
    decreases |src|
  {
    if quota == 0 || |src| == 0 then Run(Ok([]), 0)
    else if src[0].FetchFailed? then Run(Err(src[0].error), 1)
    else if !matches(src[0].entity) then
      Then([], 1, Stream(src[1..], matches, fields, table, quota))
    else
      var row := ProjectRow(fields, table, src[0].entity);
      if row.Err? then Run(Err(row.error), 1)
      else Then([row.value], 1, Stream(src[1..], matches, fields, table, quota - 1))
  }

  /** The number of loaded entities in `src` that the predicate accepts. */
  function Hits(src: seq<Fetch>, matches: Entity -> bool): nat
    decreases |src|
  {
    if |src| == 0 then 0
    else (if src[0].Fetched? && matches(src[0].entity) then 1 else 0) + Hits(src[1..], matches)
  }

  /** The entities of `es` the predicate accepts, in order. */
  function Filter(es: seq<Entity>, matches: Entity -> bool): seq<Entity>
    decreases |es|
  {
    if |es| == 0 then []
    else (if matches(es[0]) then [es[0]] else []) + Filter(es[1..], matches)
  }

  /** Projects every entity, failing at the first failed projection. */
  function ProjectAll(es: seq<Entity>, fields: seq<string>, table: string): Result<seq<Row>>
    decreases |es|
  {
    if |es| == 0 then Ok([])
    else
      var row := ProjectRow(fields, table, es[0]);
      if row.Err? then Err(row.error)
      else
        var rest := ProjectAll(es[1..], fields, table);
        if rest.Err? then rest else Ok([row.value] + rest.value)
  }

  /** A walker that never fails to load. */
  function Fetches(es: seq<Entity>): (src: seq<Fetch>)
    ensures |src| == |es|
    ensures forall k :: 0 <= k < |es| ==> src[k] == Fetched(es[k])
  {
    seq(|es|, k requires 0 <= k < |es| => Fetched(es[k]))
  }

  /** One step of `Stream` at position `v` of the walker's output. */
  lemma StreamStep(src: seq<Fetch>, matches: Entity -> bool, fields: seq<string>, table: string,
                   quota: nat, v: nat)
    requires v < |src| && quota > 0
    ensures src[v].FetchFailed? ==>
      Stream(src[v..], matches, fields, table, quota) == Run(Err(src[v].error), 1)
    ensures src[v].Fetched? && !matches(src[v].entity) ==>
      Stream(src[v..], matches, fields, table, quota)
        == Then([], 1, Stream(src[v + 1..], matches, fields, table, quota))
    ensures (src[v].Fetched? && matches(src[v].entity)
             && ProjectRow(fields, table, src[v].entity).Err?) ==>
      Stream(src[v..], matches, fields, table, quota)
        == Run(Err(ProjectRow(fields, table, src[v].entity).error), 1)
    ensures (src[v].Fetched? && matches(src[v].entity)
             && ProjectRow(fields, table, src[v].entity).Ok?) ==>
      Stream(src[v..], matches, fields, table, quota)
        == Then([ProjectRow(fields, table, src[v].entity).value], 1,
                Stream(src[v + 1..], matches, fields, table, quota - 1))
  {
    assert src[v..][0] == src[v];
    assert src[v..][1..] == src[v + 1..];
  }

  /** Steps taken in two stretches compose. */
  lemma ThenThen(a: seq<Row>, x: nat, b: seq<Row>, y: nat, r: Run)
    ensures Then(a, x, Then(b, y, r)) == Then(a + b, x + y, r)
  {
    if r.result.Ok? {
      assert a + (b + r.result.value) == (a + b) + r.result.value;
    }
  }

  /** The loop's step: extends a prefix of a walk that has room left by the walker
      step at position `v`. */
  lemma StreamAdvance(src: seq<Fetch>, matches: Entity -> bool, fields: seq<string>, table: string,
                      quota: nat, appended: seq<Row>, v: nat)
    requires v < |src| && |appended| < quota
    requires Stream(src, matches, fields, table, quota)
      == Then(appended, v, Stream(src[v..], matches, fields, table, quota - |appended|))
    ensures src[v].FetchFailed? ==>
      Stream(src, matches, fields, table, quota) == Run(Err(src[v].error), v + 1)
    ensures src[v].Fetched? && !matches(src[v].entity) ==>
      Stream(src, matches, fields, table, quota)
        == Then(appended, v + 1, Stream(src[v + 1..], matches, fields, table, quota - |appended|))
    ensures (src[v].Fetched? && matches(src[v].entity)
             && ProjectRow(fields, table, src[v].entity).Err?) ==>
      Stream(src, matches, fields, table, quota)
        == Run(Err(ProjectRow(fields, table, src[v].entity).error), v + 1)
    ensures (src[v].Fetched? && matches(src[v].entity)
             && ProjectRow(fields, table, src[v].entity).Ok?) ==>
      Stream(src, matches, fields, table, quota)
        == Then(appended + [ProjectRow(fields, table, src[v].entity).value], v + 1,
                Stream(src[v + 1..], matches, fields, table, quota - |appended| - 1))
  {
    var left := quota - |appended|;
    StreamStep(src, matches, fields, table, left, v);
    var next := Stream(src[v + 1..], matches, fields, table, left);
    if src[v].Fetched? && matches(src[v].entity) {
      var row := ProjectRow(fields, table, src[v].entity);
      if row.Ok? {
        ThenThen(appended, v, [row.value], 1,
                 Stream(src[v + 1..], matches, fields, table, left - 1));
      }
    } else if src[v].Fetched? {
      ThenThen(appended, v, [], 1, next);
      assert appended + [] == appended;
    }
  }

  /** A walk never takes more steps than the walker offers, returns at most `quota`
      rows, one per accepted entity among those it visited, visits only loaded
      entities when it succeeds, and stops before the walker's end only right
      after accepting the `quota`-th entity; and every entity it visits has fewer
      than `quota` accepted ones before it, so no entity after the `quota`-th
      accepted one is visited. */
  lemma {:induction false} StreamStopsAtQuota(src: seq<Fetch>, matches: Entity -> bool,
                                              fields: seq<string>, table: string, quota: nat)
    ensures Stream(src, matches, fields, table, quota).visited <= |src|
    ensures var run := Stream(src, matches, fields, table, quota);
      run.result.Ok? ==>
        && |run.result.value| <= quota
        && |run.result.value| == Hits(src[..run.visited], matches)
        && (forall k :: 0 <= k < run.visited ==> src[k].Fetched?)
        && (run.visited < |src| ==>
              && |run.result.value| == quota
              && (quota > 0 ==> run.visited > 0 && src[run.visited - 1].Fetched?
                                && matches(src[run.visited - 1].entity)))
    ensures var run := Stream(src, matches, fields, table, quota);
      run.result.Err? ==> run.visited > 0
    ensures var run := Stream(src, matches, fields, table, quota);
      run.visited > 0 ==> Hits(src[..run.visited - 1], matches) < quota
    decreases |src|
  {
    var run := Stream(src, matches, fields, table, quota);
    if quota == 0 || |src| == 0 {
      assert src[..0] == [];
    } else if src[0].FetchFailed? {
      assert src[..0] == [];
    } else {
      var e := src[0].entity;
      var row := ProjectRow(fields, table, e);
      if matches(e) && row.Err? {
        assert src[..0] == [];
      } else {
        var q' := if matches(e) then quota - 1 else quota;
        var tail := Stream(src[1..], matches, fields, table, q');
        StreamStopsAtQuota(src[1..], matches, fields, table, q');
        assert run.visited == 1 + tail.visited;
        if tail.visited == 0 {
          assert src[..run.visited - 1] == [];
        } else {
          assert src[..run.visited - 1][0] == src[0];
          assert src[..run.visited - 1][1..] == src[1..][..tail.visited - 1];
        }
        if run.result.Ok? {
          assert src[..run.visited][0] == src[0];
          assert src[..run.visited][1..] == src[1..][..tail.visited];
          forall k | 0 <= k < run.visited
            ensures src[k].Fetched?
          {
            if k > 0 {
              assert src[k] == src[1..][k - 1];
            }
          }
          if run.visited < |src| && q' == 0 {
            assert tail.visited == 0;
          }
        }
      }
    }
  }

  /** `row` is the projection of an entity the walker loaded and the predicate accepted. */
  ghost predicate ProjectedFrom(row: Row, src: seq<Fetch>, matches: Entity -> bool,
                                fields: seq<string>, table: string) {
    exists k :: 0 <= k < |src| && src[k].Fetched? && matches(src[k].entity)
      && ProjectRow(fields, table, src[k].entity) == Ok(row)
  }

  /** Every row a successful walk returns is keyed by exactly the projected fields
      and is the projection of an accepted entity the walker loaded. */
  lemma {:induction false} StreamRowsHaveFieldKeys(src: seq<Fetch>, matches: Entity -> bool,
                                                   fields: seq<string>, table: string, quota: nat)
    ensures var run := Stream(src, matches, fields, table, quota);
      run.result.Ok? ==> forall row :: row in run.result.value ==>
        row.Keys == (set f | f in fields) && ProjectedFrom(row, src, matches, fields, table)
    decreases |src|
  {
    var run := Stream(src, matches, fields, table, quota);
    if quota == 0 || |src| == 0 || src[0].FetchFailed? {
    } else {
      var e := src[0].entity;
      var row := ProjectRow(fields, table, e);
      if matches(e) && row.Err? {
      } else {
        var q' := if matches(e) then quota - 1 else quota;
        var tail := Stream(src[1..], matches, fields, table, q');
        StreamRowsHaveFieldKeys(src[1..], matches, fields, table, q');
        if run.result.Ok? {
          var head := if matches(e) then [row.value] else [];
          assert run == Then(head, 1, tail);
          assert tail.result.Ok? && run.result.value == head + tail.result.value;
          forall r | r in run.result.value
            ensures r.Keys == (set f | f in fields) && ProjectedFrom(r, src, matches, fields, table)
          {
            if r in tail.result.value {
              assert ProjectedFrom(r, src[1..], matches, fields, table);
              var k :| 0 <= k < |src[1..]| && src[1..][k].Fetched? && matches(src[1..][k].entity)
                && ProjectRow(fields, table, src[1..][k].entity) == Ok(r);
              assert src[k + 1] == src[1..][k];
            } else {
              assert r in head;
              assert src[0].Fetched? && matches(src[0].entity) && ProjectRow(fields, table, src[0].entity) == Ok(r);
            }
          }
        }
      }
    }
  }

  /** The first step the walker fails to load ends the walk with its error exactly
      when fewer than `quota` accepted entities come before it; otherwise the walk
      stops at the `quota`-th accepted entity and never reaches the failure. */
  lemma {:induction false} StreamFailsAtFirstUnloaded(src: seq<Fetch>, matches: Entity -> bool,
                                                      fields: seq<string>, table: string,
                                                      quota: nat, k: nat)
    requires k < |src| && src[k].FetchFailed?
    requires forall i :: 0 <= i < k ==> src[i].Fetched?
    requires forall i :: 0 <= i < k && src[i].Fetched? && matches(src[i].entity) ==>
      ProjectRow(fields, table, src[i].entity).Ok?
    ensures Hits(src[..k], matches) < quota ==>
      Stream(src, matches, fields, table, quota).result == Err(src[k].error)
    ensures Hits(src[..k], matches) >= quota ==>
      Stream(src, matches, fields, table, quota).result.Ok?
    decreases k
  {
    if quota == 0 {
    } else if k == 0 {
      assert src[..0] == [];
    } else {
      var e := src[0].entity;
      var q' := if matches(e) then quota - 1 else quota;
      assert src[..k][1..] == src[1..][..k - 1];
      assert Hits(src[..k], matches) == (if matches(e) then 1 else 0) + Hits(src[1..][..k - 1], matches);
      forall i | 0 <= i < k - 1
        ensures src[1..][i].Fetched?
        ensures src[1..][i].Fetched? && matches(src[1..][i].entity) ==>
          ProjectRow(fields, table, src[1..][i].entity).Ok?
      {
        assert src[1..][i] == src[i + 1];
      }
      StreamFailsAtFirstUnloaded(src[1..], matches, fields, table, q', k - 1);
    }
  }

  /** With a walker that never fails, a walk returns the projections of the first
      `min(quota, #accepted)` accepted entities, in walker order. */
  lemma {:induction false} StreamTakesFirstMatches(es: seq<Entity>, matches: Entity -> bool,
                                                   fields: seq<string>, table: string, quota: nat)
    ensures var accepted := Filter(es, matches);
      Stream(Fetches(es), matches, fields, table, quota).result
        == ProjectAll(accepted[..Min(quota, |accepted|)], fields, table)
    decreases |es|
  {
    var accepted := Filter(es, matches);
    if quota == 0 || |es| == 0 {
    } else {
      var e := es[0];
      assert Fetches(es)[0] == Fetched(e);
      assert Fetches(es)[1..] == Fetches(es[1..]);
      var rest := Filter(es[1..], matches);
      if matches(e) {
        StreamTakesFirstMatches(es[1..], matches, fields, table, quota - 1);
        assert accepted == [e] + rest;
        assert accepted[..Min(quota, |accepted|)]
          == [e] + rest[..Min(quota - 1, |rest|)];
      } else {
        StreamTakesFirstMatches(es[1..], matches, fields, table, quota);
        assert accepted == rest;
        var tail := Stream(Fetches(es[1..]), matches, fields, table, quota);
        if tail.result.Ok? {
          assert [] + tail.result.value == tail.result.value;
        }
      }
    }
  }

  /** The quota the loop's limit test gives a walk as written: a limit of zero still
      leaves room for one row, since the test only follows an append. */
  function AsWrittenQuota(limit: nat): nat {
    if limit == 0 then 1 else limit
  }

  /** The part of the walker's output the loop can reach as written: with a limit of
      zero the commit walk's test after every entity stops it after the first one. */
  function AsWrittenView(src: seq<Fetch>, limit: nat, rule: StopRule): seq<Fetch> {
    if rule == AfterEveryEntity && limit == 0 && |src| > 0 then src[..1] else src
  }

  /** The walk loop as written: `limit` empty rows are preallocated, each accepted
      entity's row is appended and `counter` incremented, the limit is compared per
      `rule`, and the result is the slice `rows[len(rows)-counter+1:]`. */
  method WalkRows(src: seq<Fetch>, matches: Entity -> bool, fields: seq<string>, table: string,
                  limit: nat, rule: StopRule)
    returns (rows: Result<seq<Row>>, visited: nat)
    ensures Run(rows, visited)
      == Stream(AsWrittenView(src, limit, rule), matches, fields, table, AsWrittenQuota(limit))
    ensures limit > 0 ==> Run(rows, visited) == Stream(src, matches, fields, table, limit)
    ensures visited <= |src|
  {
    ghost var view := AsWrittenView(src, limit, rule);
    ghost var quota := AsWrittenQuota(limit);
    ghost var empties: seq<Row> := seq(limit, _ => map[]);
    var buffer: seq<Row> := seq(limit, _ => map[]);
    var counter := 1;
    ghost var appended: seq<Row> := [];
    visited := 0;
    assert view[0..] == view;
    ghost var whole := Stream(view, matches, fields, table, quota);
    if whole.result.Ok? {
      assert [] + whole.result.value == whole.result.value;
    }
    while visited < |src|
      invariant visited <= |view| <= |src| && view == src[..|view|]
      invariant rule == AfterEveryEntity && limit == 0 ==> visited == 0
      invariant counter == |appended| + 1 && |appended| < quota
      invariant buffer == empties + appended
      invariant Stream(view, matches, fields, table, quota)
        == Then(appended, visited, Stream(view[visited..], matches, fields, table, quota - |appended|))
      decreases |src| - visited
    {
      assert view[visited] == src[visited];
      StreamAdvance(view, matches, fields, table, quota, appended, visited);
      var item := src[visited];
      visited := visited + 1;
      if item.FetchFailed? {
        return Err(item.error), visited;
      }
      var e := item.entity;
      if matches(e) {
        var row := ProjectRow(fields, table, e);
        if row.Err? {
          return Err(row.error), visited;
        }
        buffer := buffer + [row.value];
        appended := appended + [row.value];
        counter := counter + 1;
        if rule == AfterMatch && counter > limit {
          break;
        }
      }
      if rule == AfterEveryEntity && counter > limit {
        if limit == 0 {
          assert visited == |view|;
        }
        break;
      }
    }
    assert view[visited..] == [] || quota - |appended| == 0;
    assert Stream(view[visited..], matches, fields, table, quota - |appended|) == Run(Ok([]), 0);
    assert appended + [] == appended;
    assert buffer[|buffer| - counter + 1..] == appended;
    rows := Ok(buffer[|buffer| - counter + 1..]);
    assert AsWrittenView(src, limit, rule) == view;
  }

  /** The walk loop with the limit honoured as a hard bound: a zero limit returns
      no rows without asking the walker for anything. */
  method WalkRowsBounded(src: seq<Fetch>, matches: Entity -> bool, fields: seq<string>,
                         table: string, limit: nat, rule: StopRule)
    returns (rows: Result<seq<Row>>, visited: nat)
    ensures Run(rows, visited) == Stream(src, matches, fields, table, limit)
    ensures rows.Ok? ==> |rows.value| <= limit
    ensures limit == 0 ==> rows == Ok([]) && visited == 0
  {
    if limit == 0 {
      return Ok([]), 0;
    }
    rows, visited := WalkRows(src, matches, fields, table, limit, rule);
    StreamStopsAtQuota(src, matches, fields, table, limit);
  }

  /** The loop as written returns a row for a zero limit: one remote, no filter,
      `LIMIT 0`, and the remote's row comes out. */
  method LimitZeroCounterexample() returns (rows: Result<seq<Row>>, visited: nat)
    ensures rows == Ok([map["name" := "origin"]]) && visited == 1
  {
    var origin := RemoteEntity(Remote("origin", "git@example.org:r.git", "", "/repo/.git/"));
    var src := [Fetched(origin)];
    var all: Entity -> bool := _ => true;
    rows, visited := WalkRows(src, all, ["name"], "remotes", 0, AfterMatch);
    var row := map["name" := "origin"];
    assert ProjectRow(["name"], "remotes", origin) == Ok(row);
    assert src[1..] == [];
    assert Stream(src, all, ["name"], "remotes", 1) == Then([row], 1, Run(Ok([]), 0));
    assert [row] + [] == [row];
  }
}

=== FILE: results.dfy ===
/** Failure-carrying values shared by the runtime model. Every fatal report of the
    runtime (`log.Fatal`, `log.Fatalln`, `log.Fatalf`) becomes an `Err` value here. */
module Results {

  /** The conditions that end a query in the runtime. */
  datatype Error =
    | UnknownTable(table: string)
    | UnknownField(table: string, field: string)
    | UnimplementedField(field: string)
    | UnclassifiedReference(name: string)
    | RemoteLoadFailure(remote: string)

  datatype Option<+T> = None | Some(value: T)

  datatype Result<+T> = Ok(value: T) | Err(error: Error)

  /** The runtime's `error` return: nil (`Pass`) or a runtime error (`Fail`). */
  datatype Outcome = Pass | Fail(error: Error)
}

=== FILE: runtime.dfy ===
/** A whole `SELECT` against one bound table: the dispatcher picks the walk, the
    walk filters, projects and limits the walker's entities, and the orderer
    reorders the rows it returns. */
module Runtime {
  import opened Results
  import opened Schema
  import opened Dispatch
  import opened Entities
  import opened Pipeline
  import opened Ordering
  import opened Extract

  /** The parts of a parsed `SELECT` the runtime reads. */
  datatype Query = Query(
    table: string,
    fields: seq<string>,
    wildCard: bool,
    limit: nat,
    order: Option<OrderBy>)

  /** The repository as the walkers see it: commits in walk order, references in
      iterator order, the listed remote names, and the remotes that load by name. */
  datatype Repository = Repository(
    commits: seq<Commit>,
    references: seq<Reference>,
    remoteNames: seq<string>,
    remotes: map<string, Remote>)

  /** The fields a walk projects: the query's own, or under a wildcard the queried
      table's declared list (none for an undeclared table). */
  function ProjectedFields(q: Query): (fields: seq<string>)
    ensures !q.wildCard ==> fields == q.fields
    ensures q.wildCard ==> forall f :: f in fields ==> f != Wildcard && UseFieldFromTable(f, q.table).Pass?
    ensures q.wildCard && q.table in PossibleTables ==> forall f :: f in PossibleTables[q.table] ==> f in fields
  {
    if !q.wildCard then q.fields
    else if q.table in PossibleTables then PossibleTables[q.table]
    else []
  }

  /** The commit walker's output. */
  function CommitWalk(repo: Repository): (src: seq<Fetch>)
    ensures |src| == |repo.commits|
    ensures forall k :: 0 <= k < |src| ==> src[k] == Fetched(CommitEntity(repo.commits[k]))
  {
    seq(|repo.commits|, k requires 0 <= k < |repo.commits| => Fetched(CommitEntity(repo.commits[k])))
  }

  /** The reference iterator's output. */
  function ReferenceWalk(repo: Repository): (src: seq<Fetch>)
    ensures |src| == |repo.references|
    ensures forall k :: 0 <= k < |src| ==> src[k] == Fetched(ReferenceEntity(repo.references[k]))
  {
    seq(|repo.references|,
        k requires 0 <= k < |repo.references| => Fetched(ReferenceEntity(repo.references[k])))
  }

  /** Loading each listed remote in turn; a name that does not load is fatal. */
  function RemoteWalk(repo: Repository): (src: seq<Fetch>)
    ensures |src| == |repo.remoteNames|
    ensures forall k :: 0 <= k < |src| ==>
      (repo.remoteNames[k] in repo.remotes ==>
         src[k] == Fetched(RemoteEntity(repo.remotes[repo.remoteNames[k]])))
      && (repo.remoteNames[k] !in repo.remotes ==>
            src[k] == FetchFailed(RemoteLoadFailure(repo.remoteNames[k])))
  {
    seq(|repo.remoteNames|,
        k requires 0 <= k < |repo.remoteNames| =>
          var name := repo.remoteNames[k];
          if name in repo.remotes then Fetched(RemoteEntity(repo.remotes[name]))
          else FetchFailed(RemoteLoadFailure(name)))
  }

  /** The walk the dispatcher picks for a freshly built runtime, as its kind, the
      walker's output and where the limit is compared; `None` for a walk that
      produces nothing (trees, or a table no walk serves). */
  function WalkFor(q: Query, repo: Repository): (w: Option<(seq<Fetch>, StopRule)>)
    ensures w.Some? <==> IsValidTable(q.table).Pass?
    ensures w.Some? ==> (w.value.1 == AfterEveryEntity <==> q.table == "commits")
    ensures w.Some? && q.table != "remotes" ==>
      forall k :: 0 <= k < |w.value.0| ==> w.value.0[k].Fetched?
    ensures q.table == "commits" ==> w == Some((CommitWalk(repo), AfterEveryEntity))
    ensures q.table in {"refs", "tags", "branches"} ==> w == Some((ReferenceWalk(repo), AfterMatch))
    ensures q.table == "remotes" ==> w == Some((RemoteWalk(repo), AfterMatch))
  {
    match FindWalkType(q.table, Unset)
    case WalkCommits => Some((CommitWalk(repo), AfterEveryEntity))
    case WalkReferences => Some((ReferenceWalk(repo), AfterMatch))
    case WalkRemotes => Some((RemoteWalk(repo), AfterMatch))
    case _ => None
  }

  /** The reference semantics of the walk phase of a query; a table no walk serves
      has already been refused by the binding. */
  ghost function Walked(q: Query, repo: Repository, matches: Entity -> bool): Run {
    match WalkFor(q, repo)
    case None => Run(Err(UnknownTable(q.table)), 0)
    case Some(w) => Stream(w.0, matches, ProjectedFields(q), q.table, q.limit)
  }

  /** Runs a query with both corrections: bind the queried table, dispatch on it,
      walk with the zero limit handled, then order with the sorting orderer. An
      undeclared table, `trees` among them, fails at the binding before any walk.
      A fatal walk error ends the query before
      the orderer runs; the rows returned are at most `limit`, each keyed by
      exactly the projected fields and each the projection of an accepted entity,
      and they are the walk's rows reordered. */
  method Execute(q: Query, repo: Repository, matches: Entity -> bool,
                 greater: (string, string) -> bool, smaller: (string, string) -> bool)
    returns (r: Result<seq<Row>>)
    ensures Walked(q, repo, matches).result.Err? ==> r == Walked(q, repo, matches).result
    ensures Walked(q, repo, matches).result.Ok? && q.order.None? ==>
      r == Walked(q, repo, matches).result
    ensures WalkFor(q, repo).Some? && Walked(q, repo, matches).result.Ok? && q.order.Some? ==>
      (r.Err? <==> UseFieldFromTable(q.order.value.field, q.table).Fail?)
      && (r.Err? ==> r.error == UseFieldFromTable(q.order.value.field, q.table).error)
    ensures q.table !in PossibleTables ==> r == Err(UnknownTable(q.table))
    ensures r.Ok? ==> (Walked(q, repo, matches).result.Ok?
      && multiset(r.value) == multiset(Walked(q, repo, matches).result.value))
    ensures r.Ok? ==> |r.value| <= q.limit
    ensures r.Ok? ==> forall row :: row in r.value ==>
      row.Keys == (set f | f in ProjectedFields(q))
    ensures r.Ok? && WalkFor(q, repo).Some? ==> forall row :: row in r.value ==>
      ProjectedFrom(row, WalkFor(q, repo).value.0, matches, ProjectedFields(q), q.table)
    ensures r.Ok? && q.order.Some? && StrictWeakOrder(Comparator(q.order.value, greater, smaller)) ==>
      forall p, k :: 0 <= p < k < |r.value| ==>
        !Comparator(q.order.value, greater, smaller)(Cell(r.value[p], q.order.value.field),
                                                     Cell(r.value[k], q.order.value.field))
  {
    var bound := WithTable(map[], q.table, "").1;
    if bound.Fail? {
      return Err(bound.error);
    }
    var walk := WalkFor(q, repo);
    var fields := ProjectedFields(q);
    var src := walk.value.0;
    var rows, visited := WalkRowsBounded(src, matches, fields, q.table, q.limit, walk.value.1);
    StreamRowsHaveFieldKeys(src, matches, fields, q.table, q.limit);
    if rows.Err? {
      return rows;
    }
    r := OrderRows(rows.value, q.order, q.table, greater, smaller);
    if r.Ok? {
      forall row | row in r.value
        ensures row in rows.value
      {
        assert row in multiset(r.value);
      }
    }
  }

  /** The reference semantics of the walk phase as the runtime writes it: the
      limit test gives a zero limit room for one row, and the commit walk at a
      zero limit reaches only the first commit. */
  ghost function WalkedAsWritten(q: Query, repo: Repository, matches: Entity -> bool): Run {
    match WalkFor(q, repo)
    case None => Run(Err(UnknownTable(q.table)), 0)
    case Some(w) =>
      Stream(AsWrittenView(w.0, q.limit, w.1), matches, ProjectedFields(q), q.table,
             AsWrittenQuota(q.limit))
  }

  /** The two walk semantics differ only at a zero limit. */
  lemma AsWrittenWalkAgreesAboveZero(q: Query, repo: Repository, matches: Entity -> bool)
    requires q.limit > 0
    ensures WalkedAsWritten(q, repo, matches) == Walked(q, repo, matches)
  {
  }

  /** Runs a query as the runtime writes it: the walk loop with its own limit test
      and slice, then the orderer's swap loops comparing against the outer row
      captured before each inner pass. The queried table is bound first, so an
      undeclared table, `trees` among them, fails before any walk; a fatal walk
      error ends the query before the orderer. */
  method ExecuteAsWritten(q: Query, repo: Repository, matches: Entity -> bool,
                          greater: (string, string) -> bool, smaller: (string, string) -> bool)
    returns (r: Result<seq<Row>>)
    ensures WalkedAsWritten(q, repo, matches).result.Err? ==>
      r == WalkedAsWritten(q, repo, matches).result
    ensures q.table !in PossibleTables ==> r == Err(UnknownTable(q.table))
    ensures WalkedAsWritten(q, repo, matches).result.Ok? && q.order.None? ==>
      r == WalkedAsWritten(q, repo, matches).result
    ensures WalkFor(q, repo).Some? && WalkedAsWritten(q, repo, matches).result.Ok? && q.order.Some? ==>
      (r.Err? <==> UseFieldFromTable(q.order.value.field, q.table).Fail?)
      && (r.Err? ==> r.error == UseFieldFromTable(q.order.value.field, q.table).error)
    ensures r.Ok? && WalkFor(q, repo).Some? && q.order.Some? ==>
      r.value == OuterPass(WalkedAsWritten(q, repo, matches).result.value, 0,
                           RowRank(Comparator(q.order.value, greater, smaller), q.order.value.field))
    ensures r.Ok? ==> (WalkedAsWritten(q, repo, matches).result.Ok?
      && multiset(r.value) == multiset(WalkedAsWritten(q, repo, matches).result.value))
    ensures r.Ok? ==> |r.value| <= AsWrittenQuota(q.limit)
  {
    var bound := WithTable(map[], q.table, "").1;
    if bound.Fail? {
      return Err(bound.error);
    }
    var walk := WalkFor(q, repo);
    var fields := ProjectedFields(q);
    var src := walk.value.0;
    var rows, visited := WalkRows(src, matches, fields, q.table, q.limit, walk.value.1);
    StreamStopsAtQuota(AsWrittenView(src, q.limit, walk.value.1), matches, fields, q.table,
                       AsWrittenQuota(q.limit));
    if rows.Err? {
      return rows;
    }
    r := OrderTable(rows.value, q.order, q.table, greater, smaller);
  }

  /** A remote that does not load ends a `remotes` query with its load failure
      exactly when it is the first listed name that does not load and fewer
      accepted remotes are listed before it than the walk's quota: `max(limit, 1)`
      for the loop as written, which at `LIMIT 0` still loads the first remote,
      and `limit` for the corrected loop. Past the quota the walk never tries to
      load it. */
  lemma RemoteLoadFailsBeforeLimit(repo: Repository, matches: Entity -> bool, fields: seq<string>,
                                   limit: nat, k: nat)
    requires k < |repo.remoteNames| && repo.remoteNames[k] !in repo.remotes
    requires forall i :: 0 <= i < k ==> repo.remoteNames[i] in repo.remotes
    requires forall f :: f in fields ==> f in PossibleTables["remotes"]
    ensures Stream(AsWrittenView(RemoteWalk(repo), limit, AfterMatch), matches, fields, "remotes",
                   AsWrittenQuota(limit)).result
              == Err(RemoteLoadFailure(repo.remoteNames[k]))
            <==> Hits(RemoteWalk(repo)[..k], matches) < AsWrittenQuota(limit)
    ensures Stream(RemoteWalk(repo), matches, fields, "remotes", limit).result
              == Err(RemoteLoadFailure(repo.remoteNames[k]))
            <==> Hits(RemoteWalk(repo)[..k], matches) < limit
  {
    var src := RemoteWalk(repo);
    forall i | 0 <= i < k && src[i].Fetched? && matches(src[i].entity)
      ensures ProjectRow(fields, "remotes", src[i].entity).Ok?
    {
      var remote := src[i].entity.remote;
      forall f | f in fields
        ensures Metadata(f, "remotes", src[i].entity).Ok?
      {
        assert UseFieldFromTable(f, "remotes").Pass? && f in RemoteCases;
      }
    }
    StreamFailsAtFirstUnloaded(src, matches, fields, "remotes", AsWrittenQuota(limit), k);
    StreamFailsAtFirstUnloaded(src, matches, fields, "remotes", limit, k);
  }

  /** Under a wildcard, every row of a query on a declared table carries exactly
      the table's declared fields; otherwise exactly the requested fields. */
  lemma WildcardRowsCarryDeclaredFields(q: Query, repo: Repository, matches: Entity -> bool)
    ensures var run := Walked(q, repo, matches);
      run.result.Ok? ==> forall row :: row in run.result.value ==>
        && (q.wildCard && q.table in PossibleTables ==> row.Keys == set f | f in PossibleTables[q.table])
        && (!q.wildCard ==> row.Keys == set f | f in q.fields)
  {
    var walk := WalkFor(q, repo);
    if walk.Some? {
      StreamRowsHaveFieldKeys(walk.value.0, matches, ProjectedFields(q), q.table, q.limit);
    }
  }
}

=== FILE: schema.dfy ===
/** The table registry of the runtime: the declared virtual tables with their
    ordered field lists, the proxy-table declarations, field validation and the
    alias binding a query establishes. */
module Schema {
  import opened Results

  /** The field name a query uses to ask for every field of a table. */
  const Wildcard := "*"

  /** The declared tables and their fields, in declaration order. The `trees`
      table is commented out in the declaration, so it is not a table here. */
  const PossibleTables: map<string, seq<string>> := map[
    "commits" := ["hash", "date", "author", "author_email", "committer",
                  "committer_email", "message", "full_message"],
    "refs" := ["name", "full_name", "type", "hash"],
    "remotes" := ["name", "url", "push_url", "owner"],
    "tags" := ["name", "full_name", "hash"],
    "branches" := ["name", "full_name", "hash"]
  ]

  /** A proxy table: a base table plus the field equalities that select its rows. */
  datatype ProxyTable = ProxyTable(table: string, fields: map<string, string>)

  const ProxyTables: map<string, ProxyTable> := map[
    "tags" := ProxyTable("refs", map["type" := "tag"]),
    "branches" := ProxyTable("refs", map["type" := "branch"])
  ]

  /** Membership test on the proxy declarations: exactly `tags` and `branches`,
      each a declared table over the declared `refs`. */
  function IsProxyTable(tableName: string): (isIn: bool)
    ensures isIn <==> tableName == "tags" || tableName == "branches"
    ensures isIn ==> tableName in PossibleTables && ProxyTables[tableName].table in PossibleTables
  {
    tableName in ProxyTables
  }

  /** Rejects every name that is not a declared table. */
  function IsValidTable(tableName: string): (r: Outcome)
    ensures r.Pass? <==> tableName in {"commits", "refs", "remotes", "tags", "branches"}
    ensures r.Fail? ==> r.error == UnknownTable(tableName)
  {
    if tableName in PossibleTables then Pass else Fail(UnknownTable(tableName))
  }

  /** The linear search of a table's field list. */
  function Contains(fields: seq<string>, field: string): (found: bool)
    ensures found <==> field in fields
    decreases |fields|
  {
    if |fields| == 0 then false
    else fields[0] == field || Contains(fields[1..], field)
  }

  /** Validates a field, or the wildcard, against a table. */
  function UseFieldFromTable(field: string, tableName: string): (r: Outcome)
    ensures r.Pass? <==>
      tableName in PossibleTables && (field == Wildcard || field in PossibleTables[tableName])
    ensures tableName !in PossibleTables ==> r == Fail(UnknownTable(tableName))
    ensures tableName in PossibleTables && r.Fail? ==> r == Fail(UnknownField(tableName, field))
  {
    var check := IsValidTable(tableName);
    if check.Fail? then check
    else
      if field == Wildcard then Pass
      else if Contains(PossibleTables[tableName], field) then Pass
      else Fail(UnknownField(tableName, field))
  }

  /** The alias a binding is stored under: the given alias, or the table name when it is empty. */
  function AliasOf(tableName: string, alias: string): string {
    if alias == "" then tableName else alias
  }

  /** Binds an alias to a table in the builder's table map. The result pairs the
      new map with the error outcome; on an error the map is the one given. */
  function WithTable(tables: map<string, string>, tableName: string, alias: string)
    : (r: (map<string, string>, Outcome))
    ensures r.1.Pass? <==> tableName in PossibleTables
    ensures r.1.Fail? ==> r.0 == tables && r.1.error == UnknownTable(tableName)
    ensures r.1.Pass? ==>
      && r.0.Keys == tables.Keys + {AliasOf(tableName, alias)}
      && r.0[AliasOf(tableName, alias)] == tableName
      && forall a :: a in tables && a != AliasOf(tableName, alias) ==> r.0[a] == tables[a]
  {
    var check := IsValidTable(tableName);
    if check.Fail? then (tables, check)
    else
      if |PossibleTables[tableName]| == 0 then (tables, Fail(UnknownTable(tableName)))
      else (tables[AliasOf(tableName, alias) := tableName], Pass)
  }

  /** A first binding made without an alias leaves exactly one key, the table name,
      which is the name the field extractors then validate against. */
  lemma FirstBindingKeyIsTableName(tableName: string)
    requires tableName in PossibleTables
    ensures WithTable(map[], tableName, "").0 == map[tableName := tableName]
    ensures WithTable(map[], tableName, "").0.Keys == {tableName}
  {
  }

  /** Both proxy tables are declared tables over the declared `refs` table, and each
      declares a strict subset of the base fields: `type`, the very field their
      implied equality tests, is not among them and is refused on them. */
  lemma ProxyTablesOmitType(p: string)
    requires IsProxyTable(p)
    ensures p in PossibleTables && ProxyTables[p].table == "refs"
    ensures ProxyTables[p].fields.Keys == {"type"}
    ensures forall f :: f in PossibleTables[p] ==> f in PossibleTables["refs"]
    ensures UseFieldFromTable("type", "refs") == Pass
    ensures UseFieldFromTable("type", p) == Fail(UnknownField(p, "type"))
  {
  }
}
